=== FILE: README.md ===
# Social-network backend: a verified model of the request handlers

This project models the request handlers of a small social-network backend:
accounts, posts with likes and comments, follow relationships, suggestions
and notifications. It is written in Dafny. The database becomes an
in-memory `Store` with a map of users, a map of posts, a list of
notifications and an id counter. Each handler becomes a pure function from
(store, authenticated requester, request fields) to a `Reply` (store
afterwards, HTTP status, JSON body, outside calls made).

Modules, one per file:

- `Basics` (`basics.dfy`): `Option`, JavaScript's `||` on strings, and the
  list operations the handlers use: `$pull`/`filter` (`RemoveAll`), a filter
  against a list (`Without`) and `slice(0, n)` (`Take`).
- `Records` (`records.dfy`): the User and Post schemas, comments,
  notifications and their defaults. bcrypt is an injective `Hash`; no
  handler reads the plaintext back out of a digest.
- `Database` (`database.dfy`): the store and the reply shape. It also holds
  the username lookup and the integrity predicate `Valid`. `Valid` covers
  ids below the counter, required fields, unique usernames and emails,
  follow lists that point at existing users and match in both directions,
  and well-formed posts.
- `Media` (`media.dfy`): the image host's public id of a stored URL.
- `Feeds` (`feeds.dfy`): post selection and the newest-first sort.
- `Auth` (`auth.dfy`), `Posts` (`posts.dfy`), `Users` (`users.dfy`): the
  handlers, with lemmas about each.

Conventions:

- A request field that is missing is written `""`. Most handlers only test
  such fields for truthiness, and both `undefined` and `""` are falsy.
  Signup and login also pass these fields on: to the username and email
  lookups (backend/controllers/auth.controller.js:16, 22, 72), to the email
  pattern (:11), to `password.length` (:28) and to `bcrypt.compare`
  (:73-76). The model assumes that a lookup by a missing field finds no
  user, as a lookup by `""` does in a store whose users all have a
  username and an email, and that the email pattern rejects a missing
  field, as it rejects `""`. The two password cases, where the source
  answers 500, are listed under "## Left out".
- Calls to the image host and the session cookie are recorded as `Effect`s.
  The URL the host returns for an upload is a parameter.
- `$sample` randomness is a parameter `pool`: the order in which the sample
  stage draws users.
- Timestamps are reduced to a post's `createdAt`, a parameter of
  `CreatePost`.

## Model

| member | source | states |
|---|---|---|
| `Posts.CreatePost` | backend/controllers/post.controller.js:12-40 | A missing requester gets 404 before the content check. Neither text nor image gets 400 and stores nothing. Otherwise exactly one post is added under a fresh id. It is owned by the requester, has the uploaded URL as its image only when an image was supplied, starts with no likes and no comments, and is stamped with the creation time. The upload happens only when an image is supplied. |
| `Posts.DeletePost` | backend/controllers/post.controller.js:49-66 | A missing post gets 404 and another user's post gets 401, with the store unchanged and no outside call in both cases. The author's delete removes exactly that post. It answers "Post deleted successfully" and destroys the image's public id, once, if and only if the post has an image. |
| `Posts.CreateThenDelete` | backend/controllers/post.controller.js:32-65 | In a valid store, deleting the post one just created gives the posts collection back; only the id counter has moved. The image destroyed is the uploaded one. |
| `Media.LastSegment` | backend/controllers/post.controller.js:61 | `split("/").pop()` is the longest suffix without a '/': it is all of the URL or is preceded by a '/'. |
| `Media.BeforeFirstDot` | backend/controllers/post.controller.js:61 | `split(".")[0]` is the longest prefix without a '.': it is all of the text or is followed by a '.'. |
| `Media.ImageIdOfPath` | backend/controllers/post.controller.js:61 | For any URL ending in `/name.ext`, where `name` has no '/' or '.' and `ext` has no '/', the public id is `name`. |
| `Media.ImageIdExample` | backend/controllers/user.controller.js:163 | "abc/def/ghi/jkl.jpg" yields "jkl", as the source's comment says. |
| `Posts.CommentOnPost` | backend/controllers/post.controller.js:79-98 | Empty text gets 400 before the post is looked up, and a missing post gets 404. On success exactly one comment {text, requester} is appended at the end. Earlier comments and every other part of the store are unchanged, and no outside call is made. |
| `Posts.LikeUnlikePost` | backend/controllers/post.controller.js:110-148 | A missing post gets 404. If the requester is already in `likes`, every occurrence is removed, the order of the rest is kept, and no notification is written. Otherwise the requester is appended and exactly one like notification from the requester to the author is written. The new list is the reply. The requester's `likedPosts` loses every occurrence of the post on unlike and gains it at the end on like; the rest of the requester's record and every other user stay as they were. |
| `Posts.LikeThenUnlike` | backend/controllers/post.controller.js:117-147 | For a requester not in the post's `likes` and, when stored, without the post in their `likedPosts`, liking and then unliking gives the original `likes` list back and returns it. The whole store comes back too, except for the one like notification, which stays. |
| `Posts.LikeRecordsLikedPost` | backend/controllers/post.controller.js:134-137 | Corrected behaviour: after a like, the post id is in the liker's `likedPosts`, and the liked-posts feed shows the post. |
| `Posts.LikeUnlikePostAsWritten` | backend/controllers/post.controller.js:122-137 | As written: the same status as the intended handler, and the users collection stays exactly as it was. |
| `Posts.LikeLostAsWritten` | backend/controllers/post.controller.js:134-137 | As written: after a successful like of a post the user had not liked, the post is still missing from `likedPosts` and from the liked-posts feed. |
| `Posts.GetAllPosts` | backend/controllers/post.controller.js:157-169 | Read-only. It answers 404 "No posts found" or 200 with the full newest-first feed. It answers 404 exactly when that feed is empty. |
| `Posts.AllPostsFeed` | backend/controllers/post.controller.js:157-167 | In a valid store, 404 comes exactly when there are no posts. Otherwise the feed holds every stored post exactly once, newest first. |
| `Posts.GetFollowingPosts` | backend/controllers/post.controller.js:205-221 | Read-only. A missing requester gets 404. Otherwise the feed is selected by the requester's `following` list. |
| `Posts.FollowingFeed` | backend/controllers/post.controller.js:211-214 | The following feed holds exactly the posts whose author the requester follows, each once, newest first. |
| `Posts.GetUserPosts` | backend/controllers/post.controller.js:232-245 | Read-only. An unknown username gets 404. Otherwise the feed is selected by that user as author. |
| `Posts.UserFeed` | backend/controllers/post.controller.js:237-238 | A user's feed holds exactly the posts that user wrote, newest first. |
| `Posts.GetLikedPosts` | backend/controllers/post.controller.js:180-195 | Read-only. A missing user gets 404. Otherwise the reply holds exactly the stored posts whose ids are in the user's `likedPosts`, each once even when an id repeats. |
| `Feeds.Collect` | backend/controllers/post.controller.js:213 | `Post.find(query)` returns exactly the stored posts the query selects, in ascending id order. |
| `Feeds.SortNewestFirst` | backend/controllers/post.controller.js:158 | `sort({ createdAt: -1 })` returns a permutation of its input, ordered newest first. |
| `Feeds.Feed` | backend/controllers/post.controller.js:213-214 | A feed holds exactly the selected posts, each exactly once, newest first. |
| `Posts.CreatePreservesValid` | backend/models/post.model.js:5-15 | Creating a post keeps the store valid. Every post keeps an existing author and text or an image, given the image host returns a non-empty URL. |
| `Posts.CommentPreservesValid` | backend/models/post.model.js:24-37 | Commenting keeps every comment's required text present. |
| `Posts.DeletePreservesValid` | backend/controllers/post.controller.js:65 | Deleting a post keeps the store valid. |
| `Posts.LikePreservesValid` | backend/controllers/post.controller.js:121-138 | Liking or unliking keeps the store valid. |
| `Users.GetUserProfile` | backend/controllers/user.controller.js:10-16 | Read-only. The reply is 200 with the profile of the user holding that username, without a password, or 404 when there is none. |
| `Users.FollowUnfollowUser` | backend/controllers/user.controller.js:29-35 | Following oneself gets 400, checked before the not-found test (both lookups run first and change nothing). Otherwise a missing target or requester gets 404. Only the two records involved can change, and posts are untouched. |
| `Users.UnfollowRemoves` | backend/controllers/user.controller.js:37-49 | Unfollowing removes every occurrence of the requester from the target's followers and of the target from the requester's following. Nothing else in either record changes, and no notification is written. |
| `Users.FollowAppends` | backend/controllers/user.controller.js:50-68 | Following appends the requester to the target's followers and the target to the requester's following. It writes exactly one follow notification from requester to target. |
| `Users.FollowThenUnfollow` | backend/controllers/user.controller.js:37-58 | In a valid store, following and then unfollowing gives both lists back. The whole store comes back too, except for the follow notification. |
| `Users.ToggleRoundTrip` | backend/controllers/user.controller.js:41-58 | For two users who hold neither relationship entry, following then unfollowing restores both lists exactly. The follow notification stays. |
| `Users.FollowPreservesValid` | backend/controllers/user.controller.js:41-58 | Either toggle keeps the follow lists pointing at existing users and in agreement: b is in a's following exactly when a is in b's followers. |
| `Database.ToggleKeepsValid` | backend/models/user.model.js:25-39 | Changing the two relationship lists of a follow pair in step keeps a store valid. |
| `Database.ToggleKeepsSymmetry` | backend/controllers/user.controller.js:41-58 | When one user's `following` and the other's `followers` gain or lose each other together, the lists still agree for every pair of users. |
| `Users.SampleStage` | backend/controllers/user.controller.js:83-90 | The `$match` and `$sample` stages yield the first ten draws other than the requester, in draw order, or all of them when there are fewer than ten. |
| `Users.SuggestedIds` | backend/controllers/user.controller.js:93-97 | Suggestions are at most four users. They are the first four users of the sample whom the requester does not follow, in sample order, as `slice(0, 4)` takes them. Fewer than four come back only when the sample had no other unfollowed user. |
| `Users.GetSuggestedUsers` | backend/controllers/user.controller.js:93-101 | The reply lists the suggested users' profiles, without passwords, in suggestion order. The store is unchanged. |
| `Users.ReplaceImage` | backend/controllers/user.controller.js:158-181 | An image is uploaded exactly when one is supplied. The old image is destroyed exactly when a new one is supplied and the old one is non-empty. The upload comes last. |
| `Users.UpdateUser` | backend/controllers/user.controller.js:123-196 | A missing user gets 404. Exactly one password supplied gets 400. A wrong current password gets 401 whatever the new password's length, and only after that a new password under 6 characters gets 400. Once those checks pass, the reply is 200 exactly when no other user holds the resulting username or email, and 500 with the store unchanged otherwise; the image calls happen in both cases. On 200 only the requester's record changes, to the `Updated` record, and the reply is that record without the password. Password lengths are counted in UTF-16 code units, as JavaScript's `.length` counts them. |
| `Users.UpdatePreservesValid` | backend/controllers/user.controller.js:184-192 | A profile update keeps required fields present and usernames and emails unique. |
| `Database.ReplaceAccountKeepsValid` | backend/models/user.model.js:6-24 | Replacing an account with a record that has its required fields, the same relationship lists and a username and email nobody else holds keeps the store valid. |
| `Users.RotateThenLogin` | backend/controllers/user.controller.js:153-155 | After a password change, login with the new password succeeds and login with the old one fails. |
| `Auth.EmailCheckMatchesPattern` | backend/controllers/auth.controller.js:10-11 | The field-by-field email check accepts exactly what `^[^\s@]+@[^\s@]+\.[^\s@]+$` matches. The field-by-field form is: no whitespace, one '@' not at the start, and after it a '.' that is neither the first nor the last character of the domain. |
| `Auth.IndexOf` | backend/controllers/auth.controller.js:10 | The position of the first occurrence of a character, or the length when it does not occur. |
| `Auth.Signup` | backend/controllers/auth.controller.js:11-59 | The checks run in order: email format, taken username, taken email, password under 6 UTF-16 code units. The first failing check decides the 400 and stores nothing. A successful signup adds exactly one user under a fresh id. That user stores the password's digest, not the password, and has empty followers, following and image, bio and link fields. The reply is the profile without a password. A missing full name or username fails the save with 500 after the cookie is set. |
| `Auth.SignupPreservesValid` | backend/models/user.model.js:6-39 | Signup keeps usernames and emails present and unique, full names present, and the follow lists consistent. |
| `Auth.SignupThenLogin` | backend/controllers/auth.controller.js:72-95 | After a successful signup, login with the same username and password succeeds and returns the same profile and cookie. |
| `Auth.Login` | backend/controllers/auth.controller.js:72-95 | Login never changes the store. It is 200 exactly when the username exists and the password matches its digest, and then the reply is the profile without a password. Every other case is the same 401 "Invalid credentials". |
| `Auth.LoginFailuresIndistinguishable` | backend/controllers/auth.controller.js:79-81 | An unknown username and a wrong password for a known username produce identical replies. |
| `Auth.LoginSucceedsIff` | backend/controllers/auth.controller.js:73-81 | In a valid store login succeeds exactly for some user's username with that user's password. |
| `Auth.GetMe` | backend/controllers/auth.controller.js:116-117 | The reply is 200 with the requester's profile without a password. It is a null body when the requester no longer exists. |
| `Basics.RemoveAll` | backend/controllers/post.controller.js:127-129 | `$pull`/`filter` removes exactly the occurrences of one value. The rest keep their order and multiplicities. |
| `Basics.RemoveAfterAppend` | backend/controllers/user.controller.js:41-58 | Pulling a value just pushed onto a list that did not hold it gives the list back. |
| `Basics.Without` | backend/controllers/user.controller.js:93-95 | The filter keeps exactly the elements not in the excluded list, in order, each as often as it occurs. |
| `Basics.SubsequencePrefix` | backend/controllers/user.controller.js:97 | A prefix of an order-preserving subsequence is one too. |
| `Feeds.AscendingOccursOnce` | backend/controllers/post.controller.js:157 | A list with strictly ascending ids holds no entry twice. |
| `Feeds.Insert` | backend/controllers/post.controller.js:158 | Inserting into a newest-first list keeps it newest first and adds exactly that entry. |
| `Media.ImageId` | backend/controllers/post.controller.js:61 | The public id taken from a stored image URL contains neither '/' nor '.'. |
| `Posts.DestroyImage` | backend/controllers/post.controller.js:60-63 | A post's image is destroyed, with one call, exactly when the post has an image, and the call names the image's public id. |
| `Records.NewUser` | backend/models/user.model.js:25-55 | A new user holds the four signup fields, empty follower, following and liked lists, and empty image, bio and link fields. |
| `Records.NewPost` | backend/models/post.model.js:16-37 | A new post holds its author, text, image and creation time, with no likes and no comments. |
| `Posts.MirrorLike` | backend/controllers/post.controller.js:122-137 | The like handler's user update appends the post to the requester's `likedPosts` on like and pulls it on unlike. No other user and no other field changes. |
| `Users.Updated` | backend/controllers/user.controller.js:138-190 | Each field of the saved record keeps its stored value when the request leaves it falsy. An image field takes the uploaded URL when one was supplied. The password becomes the new password's digest only on a password change. The relationship lists stay. |
| `Users.HeldByOtherIffTaken` | backend/models/user.model.js:6-24 | The unique indexes reject a save exactly when, leaving the user's own record aside, the username or the email is already taken. |
| `Basics.Utf16Length` | backend/controllers/auth.controller.js:28 | JavaScript's `.length` counts UTF-16 code units: one for a basic-plane character, two for a character above it. It equals the number of characters exactly when all lie in the basic plane, and twice that exactly when all lie above it. |
| `Basics.Utf16LengthAppend` | backend/controllers/auth.controller.js:28 | The count of a concatenation is the sum of the counts, so with the one-character case the count of any string is fixed. |
| `Basics.Take` | backend/controllers/user.controller.js:97 | `slice(0, n)` is the first `n` elements, or the whole list when it is shorter. |
| `Database.ProfileOf` | backend/controllers/auth.controller.js:47-58 | A reply about a user carries its id, full name, username, email, images, bio, link and both relationship lists, and no password. |
| `Records.HashInjective` | backend/controllers/auth.controller.js:34-35 | The model's assumption that two passwords have the same digest only when they are equal; bcrypt's 72-byte truncation is under "## Left out". |
| `Database.FindByUsername` | backend/controllers/auth.controller.js:72 | `findOne({ username })` returns a user holding the username, or reports that no user below the id bound holds it. |

## Findings

| source | as written | input that shows it | evidently intended | confidence | as-written member | corrected member |
|---|---|---|---|---|---|---|
| backend/controllers/post.controller.js:122-137 | The like handler pushes and pulls `likedPosts` on the user, but the User schema (backend/models/user.model.js:4-58) declares no such path. Mongoose's default strict mode drops undeclared paths from an update, so the user is never changed. | A stored user likes a post they have not liked before. | The post id is added to the liker's `likedPosts`, and `getLikedPosts` lists the post. This needs the path declared in the schema. | medium; not executed (depends on Mongoose's default strict mode) | `Posts.LikeLostAsWritten` | `Posts.LikeRecordsLikedPost` |

The rest of the model uses the corrected handler, `Posts.LikeUnlikePost`.
Its `User` record carries `likedPosts`.

## Notes on the code

- Only `createPost` requires a post to have text or an image; the Post
  schema does not. The model proves the handlers keep the condition
  (`WellFormedPosts` in `Database.Valid`).
- `likes`, `followers` and `following` are lists, not sets: a like or a
  follow pushes, an unlike or an unfollow pulls every occurrence. The model
  does the same.
- Every signup validation failure is a 400, told apart only by its error
  message. The model keeps each message.
- Only signup checks the email format. `updateUser` stores any non-empty
  email, and the model does the same.

## Left out

- Image hosting: uploads and destroys are recorded as effects, and the
  returned URL is a parameter. A destroy during `deletePost` is not
  transactional with the deletion.
- bcrypt: salting and the cost factor are not modelled. `Hash` is an
  injective constructor and `Matches` compares digests.
- `Records.HashInjective`: bcrypt reads only the first 72 UTF-8 bytes of a
  password, so two passwords that agree on those bytes match the same
  digest. The model's `Hash` is injective instead. Hence
  `Auth.LoginSucceedsIff` and `Users.RotateThenLogin` hold for the program
  only for passwords that differ within their first 72 UTF-8 bytes: a login
  with a different password that shares them succeeds, and an old password
  that shares them with the new one still logs in.
- Session tokens: JWT signing, cookie options and the route-protection
  middleware (backend/middleware/protectRoute.js) are not modelled. The
  requester id is an authenticated input. `logout` only clears the cookie
  and is left out.
- Mongoose `populate`/`select` of nested user references in feeds: feed
  entries carry the author's id.
- Timestamps other than a post's `createdAt`.
- Concurrency and non-atomic paired writes: each handler is one atomic
  transition. Interleavings that break the follow-list agreement or lose a
  notification are not modelled.
- The 500 catch-all paths for unexpected faults, and console logging. Two
  500s are kept because the schema and unique indexes produce them: signup
  with an empty full name or username, and a profile update whose username
  or email another user holds.
- Signup with the `password` field missing throws on `password.length`
  (500). Here a missing field is `""`, so the model answers 400 for it.
- Login with the `password` field missing makes bcrypt reject
  `compare(undefined, …)`, so the source answers 500. Here a missing field
  is `""`, so the model answers the 401 "Invalid credentials".
- The schema's `minLength: 6` on `password` applies to the stored bcrypt
  digest, which is always longer. The model keeps only the handlers' checks
  on the plaintext.
- backend/models/notification.model.js is not part of this model. A
  notification records `from`, `to`, the kind and a read flag. That the
  flag starts false is an assumption of the model about that schema's
  default.
- The `else` branch after `if (newUser)` in signup cannot run, because a
  constructed document is always truthy.
- `Users.UpdateUser`: the 500 body on a duplicate username or email keeps
  only the prefix "E11000 duplicate key error" of the driver's message. The
  source sends the whole `error.message`, which goes on to name the
  collection, the index and the duplicated key.
- `Users.GetSuggestedUsers`: requires that the requester exists and that
  the sampled ids are stored users. The route-protection middleware and the
  aggregation guarantee both.
- `Posts.GetLikedPosts`: states which posts are returned and that each comes once, not their order.
  MongoDB does not promise an order without a sort.
- `Feeds.SortNewestFirst`: the order of posts with equal `createdAt` is
  left open, as MongoDB leaves it.
- `Posts.CreatePreservesValid`: assumes the image host returns a non-empty
  URL.
- Route wiring (backend/routes/*.routes.js), process start-up
  (backend/server.js) and the frontend (frontend/src/App.jsx).

=== FILE: auth.dfy ===
/** The account handlers: signup with its validation chain, login with its
    single generic failure, and the current-user lookup. Session tokens are
    recorded as a `SetTokenCookie` effect; signing them is not modelled. */
module Auth {
  import opened Basics
  import opened Records
  import opened Database

  // ---------------------------------------------------------------------
  // Email shape

  /** JavaScript's `\s`: the ASCII controls tab to carriage return, space,
      no-break space, the Ogham space mark, the en quad to hair space, the
      line and paragraph separators, the narrow no-break space, the medium
      mathematical space, the ideographic space and the byte order mark. */
  predicate IsWhitespace(c: char)
  {
    var n := c as int;
    || 0x09 <= n <= 0x0D || n == 0x20 || n == 0xA0 || n == 0x1680
    || 0x2000 <= n <= 0x200A || n == 0x2028 || n == 0x2029 || n == 0x202F
    || n == 0x205F || n == 0x3000 || n == 0xFEFF
  }

  /** The character class `[^\s@]`. */
  predicate PlainChar(c: char)
  {
    !IsWhitespace(c) && c != '@'
  }

  ghost predicate AllPlain(s: string)
  {
    forall k :: 0 <= k < |s| ==> PlainChar(s[k])
  }

  /** The signup pattern `^[^\s@]+@[^\s@]+\.[^\s@]+$` read literally: the
      address is a non-empty run of plain characters, '@', another non-empty
      run, '.', and a last non-empty run. */
  ghost predicate MatchesEmailPattern(e: string)
  {
    exists i, j :: 0 < i && i + 1 < j && j + 1 < |e| && e[i] == '@' && e[j] == '.'
      && AllPlain(e[..i]) && AllPlain(e[i + 1..j]) && AllPlain(e[j + 1..])
  }

  /** The position of the first `c` in `s`, or `|s|` when there is none. */
  function IndexOf(s: string, c: char): (k: nat)
    ensures k <= |s|
    ensures k < |s| ==> s[k] == c
    ensures forall m :: 0 <= m < k ==> s[m] != c
  {
    if s == [] then 0
    else if s[0] == c then 0
    else 1 + IndexOf(s[1..], c)
  }

  /** The email check, stated field by field: no whitespace anywhere, the
      first '@' is not the first character and is the only '@', and after it
      comes a '.' that is neither the first nor the last character of the
      domain. */
  predicate ValidEmail(e: string)
  {
    && (forall k :: 0 <= k < |e| ==> !IsWhitespace(e[k]))
    && var at := IndexOf(e, '@');
    && 0 < at < |e|
    && (forall k :: at < k < |e| ==> e[k] != '@')
    && (exists k :: at + 1 < k < |e| - 1 && e[k] == '.')
  }

  /** The field-by-field check accepts exactly the addresses the pattern
      matches. */
  lemma EmailCheckMatchesPattern(e: string)
    ensures ValidEmail(e) <==> MatchesEmailPattern(e)
  {
    if ValidEmail(e) {
      var i := IndexOf(e, '@');
      var j :| i + 1 < j < |e| - 1 && e[j] == '.';
      assert AllPlain(e[..i]);
      var host := e[i + 1..j];
      var tld := e[j + 1..];
      assert AllPlain(host) by {
        forall k | 0 <= k < |host| ensures PlainChar(host[k]) {
          assert host[k] == e[i + 1 + k];
        }
      }
      assert AllPlain(tld) by {
        forall k | 0 <= k < |tld| ensures PlainChar(tld[k]) {
          assert tld[k] == e[j + 1 + k];
        }
      }
    }
    if MatchesEmailPattern(e) {
      var i, j :| 0 < i && i + 1 < j && j + 1 < |e| && e[i] == '@' && e[j] == '.'
        && AllPlain(e[..i]) && AllPlain(e[i + 1..j]) && AllPlain(e[j + 1..]);
      forall k | 0 <= k < |e| ensures !IsWhitespace(e[k]) && (k != i ==> e[k] != '@')
      {
        if k < i {
          assert e[..i][k] == e[k];
        } else if i < k < j {
          assert e[i + 1..j][k - i - 1] == e[k];
        } else if j < k {
          assert e[j + 1..][k - j - 1] == e[k];
        }
      }
      assert IndexOf(e, '@') == i;
    }
  }

  // ---------------------------------------------------------------------
  // Signup

  datatype SignupRequest = SignupRequest(fullName: string, username: string, email: string, password: string)

  const MIN_PASSWORD_LENGTH: nat := 6

  /** `signup`. The checks run in a fixed order and the first that fails
      decides the reply. The session cookie is set before the user is saved,
      so a save the schema rejects (a missing full name or username) still
      sets it and answers 500. */
  function Signup(s: Store, req: SignupRequest): (r: Reply)
    ensures !ValidEmail(req.email) ==> r == Reject(s, BAD_REQUEST, "Invalid email format")
    ensures ValidEmail(req.email) && UsernameTaken(s.users, req.username) ==>
      r == Reject(s, BAD_REQUEST, "User already exists")
    ensures ValidEmail(req.email) && !UsernameTaken(s.users, req.username) && EmailTaken(s.users, req.email) ==>
      r == Reject(s, BAD_REQUEST, "Email already exists")
    ensures ValidEmail(req.email) && !UsernameTaken(s.users, req.username) && !EmailTaken(s.users, req.email)
            && Utf16Length(req.password) < MIN_PASSWORD_LENGTH ==>
      r == Reject(s, BAD_REQUEST, "Password must be at least 6 characters")
    ensures r.status == CREATED <==>
      && ValidEmail(req.email) && !UsernameTaken(s.users, req.username) && !EmailTaken(s.users, req.email)
      && Utf16Length(req.password) >= MIN_PASSWORD_LENGTH && req.fullName != "" && req.username != ""
    ensures r.status != CREATED ==> r.store == s
    // a save the schema rejects answers 500, after the cookie has been set
    ensures ValidEmail(req.email) && !UsernameTaken(s.users, req.username) && !EmailTaken(s.users, req.email)
            && Utf16Length(req.password) >= MIN_PASSWORD_LENGTH && (req.fullName == "" || req.username == "") ==>
      r == Reply(s, SERVER_ERROR, Error("Internal server error"), [SetTokenCookie(s.nextId)])
    ensures r.status == CREATED ==>
      && var id := s.nextId;
      && id in r.store.users
      && var u := r.store.users[id];
      && r.store == s.(users := s.users[id := u], nextId := id + 1)
      && u.username == req.username && u.fullName == req.fullName && u.email == req.email
      // the password is stored as its digest
      && Matches(req.password, u.password)
      // every other field takes its schema default
      && u.followers == [] && u.following == []
      && u.profileImg == "" && u.coverImg == "" && u.bio == "" && u.link == ""
      // the reply is the new user without the password
      && r.body == ProfileBody(ProfileOf(id, u))
      && r.effects == [SetTokenCookie(id)]
  {
    if !ValidEmail(req.email) then Reject(s, BAD_REQUEST, "Invalid email format")
    else if UsernameTaken(s.users, req.username) then Reject(s, BAD_REQUEST, "User already exists")
    else if EmailTaken(s.users, req.email) then Reject(s, BAD_REQUEST, "Email already exists")
    else if Utf16Length(req.password) < MIN_PASSWORD_LENGTH then Reject(s, BAD_REQUEST, "Password must be at least 6 characters")
    else
      var id := s.nextId;
      var u := NewUser(req.fullName, req.username, req.email, Hash(req.password));
      if !HasRequiredFields(u) then Reply(s, SERVER_ERROR, Error("Internal server error"), [SetTokenCookie(id)])
      else Reply(s.(users := s.users[id := u], nextId := id + 1), CREATED, ProfileBody(ProfileOf(id, u)), [SetTokenCookie(id)])
  }

  // ---------------------------------------------------------------------
  // Login

  const INVALID_CREDENTIALS: string := "Invalid credentials"

  /** `login`. An unknown username and a wrong password get the same reply. */
  function Login(s: Store, username: string, password: string): (r: Reply)
    ensures r.store == s
    ensures r.status == OK || r == Reject(s, UNAUTHORIZED, INVALID_CREDENTIALS)
    ensures r.status == OK <==>
      FindByUsername(s.users, username, s.nextId).Some?
      && Matches(password, s.users[FindByUsername(s.users, username, s.nextId).value].password)
    ensures r.status == OK ==>
      var id := FindByUsername(s.users, username, s.nextId).value;
      r.body == ProfileBody(ProfileOf(id, s.users[id])) && r.effects == [SetTokenCookie(id)]
  {
    match FindByUsername(s.users, username, s.nextId)
    case None => Reject(s, UNAUTHORIZED, INVALID_CREDENTIALS)
    case Some(id) =>
      if !Matches(password, s.users[id].password) then Reject(s, UNAUTHORIZED, INVALID_CREDENTIALS)
      else Reply(s, OK, ProfileBody(ProfileOf(id, s.users[id])), [SetTokenCookie(id)])
  }

  /** A login with an unknown username and a login with a known username but
      the wrong password cannot be told apart by their replies. */
  lemma LoginFailuresIndistinguishable(s: Store, unknown: string, p1: string, id: UserId, p2: string)
    requires Valid(s)
    requires !UsernameTaken(s.users, unknown)
    requires id in s.users && !Matches(p2, s.users[id].password)
    ensures Login(s, unknown, p1) == Login(s, s.users[id].username, p2)
    ensures Login(s, unknown, p1).status == UNAUTHORIZED
  {
    FindIffTaken(s, unknown);
    FindOwner(s, id);
  }

  /** In a valid store a login succeeds exactly for a stored user's username
      with that user's password. */
  lemma LoginSucceedsIff(s: Store, username: string, password: string)
    requires Valid(s)
    ensures Login(s, username, password).status == OK <==>
      exists id :: id in s.users && s.users[id].username == username && Matches(password, s.users[id].password)
  {
    if id :| id in s.users && s.users[id].username == username && Matches(password, s.users[id].password) {
      FindOwner(s, id);
    }
  }

  /** `getMe`: the authenticated user without the password; a user deleted
      since the token was issued yields a null body. */
  function GetMe(s: Store, requester: UserId): (r: Reply)
    ensures r.store == s && r.status == OK && r.effects == []
    ensures requester in s.users ==> r.body == ProfileBody(ProfileOf(requester, s.users[requester]))
    ensures requester !in s.users ==> r.body == NullBody
  {
    if requester in s.users then Reply(s, OK, ProfileBody(ProfileOf(requester, s.users[requester])), [])
    else Reply(s, OK, NullBody, [])
  }

  // ---------------------------------------------------------------------
  // Properties

  /** After a successful signup, logging in with the same username and
      password succeeds and returns the same profile. */
  lemma SignupThenLogin(s: Store, req: SignupRequest)
    requires Valid(s)
    requires Signup(s, req).status == CREATED
    ensures var signedUp := Signup(s, req);
      var login := Login(signedUp.store, req.username, req.password);
      login.status == OK && login.body == signedUp.body && login.effects == signedUp.effects
  {
    var t := Signup(s, req).store;
    SignupPreservesValid(s, req);
    FindOwner(t, s.nextId);
  }

  lemma SignupPreservesValid(s: Store, req: SignupRequest)
    requires Valid(s)
    ensures Valid(Signup(s, req).store)
  {
    var r := Signup(s, req);
    if r.status == CREATED {
      var t := r.store;
      var id := s.nextId;
      assert id !in s.users;
      forall a, b | a in t.users && b in t.users && a != b
        ensures t.users[a].username != t.users[b].username && t.users[a].email != t.users[b].email
      {
      }
      forall a, b | a in t.users && b in t.users
        ensures b in t.users[a].following <==> a in t.users[b].followers
      {
        if a != id && b != id {
          assert b in s.users[a].following <==> a in s.users[b].followers;
        }
      }
    }
  }
}

=== FILE: basics.dfy ===
/** Values and list operations shared by the handlers: an optional value,
    JavaScript's `||` on strings, and the array manipulations the
    controllers perform (`$pull`, `filter`, `slice`). */
module Basics {

  datatype Option<+T> = None | Some(value: T)

  /** JavaScript `a || b` on strings. The empty string is falsy; a field
      missing from a request body is written "" in this model, so it is
      falsy too. */
  function OrElse(a: string, b: string): (r: string)
    ensures a != "" ==> r == a
    ensures a == "" ==> r == b
  {
    if a != "" then a else b
  }

  /** JavaScript's `.length` of a string: the number of UTF-16 code units,
      one for a character of the basic plane and two (a surrogate pair) for
      a character above it. */
  function Utf16Length(s: string): (n: nat)
    ensures |s| <= n <= 2 * |s|
    ensures n == |s| <==> forall k :: 0 <= k < |s| ==> s[k] as int < 0x1_0000
    ensures n == 2 * |s| <==> forall k :: 0 <= k < |s| ==> s[k] as int >= 0x1_0000
    ensures |s| == 1 ==> n == if s[0] as int >= 0x1_0000 then 2 else 1
  {
    if s == [] then 0
    else
      var rest := Utf16Length(s[1..]);
      assert forall k :: 1 <= k < |s| ==> s[k] == s[1..][k - 1];
      (if s[0] as int >= 0x1_0000 then 2 else 1) + rest
  }

  /** The length of a concatenation is the sum of the lengths; with the
      single-character case this fixes the count for every string: one unit
      per basic-plane character plus two per character above it. */
  lemma {:induction false} Utf16LengthAppend(a: string, b: string)
    ensures Utf16Length(a + b) == Utf16Length(a) + Utf16Length(b)
  {
    if a != [] {
      assert (a + b)[0] == a[0];
      assert (a + b)[1..] == a[1..] + b;
      Utf16LengthAppend(a[1..], b);
    } else {
      assert a + b == b;
    }
  }

  /** `a` embeds into `b` in order: `a` is `b` with some elements dropped. */
  ghost predicate IsSubsequence<T>(a: seq<T>, b: seq<T>)
    decreases |b|
  {
    if a == [] then true
    else if b == [] then false
    else (a[0] == b[0] && IsSubsequence(a[1..], b[1..])) || IsSubsequence(a, b[1..])
  }

  /** Every occurrence of `x` removed, the rest kept in order: MongoDB's
      `$pull` and the handlers' `filter((id) => id !== x)`. */
  function RemoveAll<T(==,!new)>(xs: seq<T>, x: T): (r: seq<T>)
    ensures forall y :: y in r <==> y in xs && y != x
    ensures multiset(r) == multiset(xs)[x := 0]
    ensures IsSubsequence(r, xs)
  {
    if xs == [] then []
    else
      assert xs == [xs[0]] + xs[1..];
      if xs[0] == x then RemoveAll(xs[1..], x)
      else [xs[0]] + RemoveAll(xs[1..], x)
  }

  /** The elements of `xs` that are not in `bad`, in order: `xs.filter((y) => !bad.includes(y))`. */
  function Without<T(==,!new)>(xs: seq<T>, bad: seq<T>): (r: seq<T>)
    ensures forall y :: y in r <==> y in xs && y !in bad
    ensures forall y :: multiset(r)[y] == if y in bad then 0 else multiset(xs)[y]
    ensures IsSubsequence(r, xs)
  {
    if xs == [] then []
    else
      assert xs == [xs[0]] + xs[1..];
      if xs[0] in bad then Without(xs[1..], bad)
      else [xs[0]] + Without(xs[1..], bad)
  }

  /** `xs.slice(0, n)`: the first `n` elements, or all of them when there
      are fewer. */
  function Take<T>(xs: seq<T>, n: nat): (r: seq<T>)
    ensures |r| <= |xs| && r == xs[..|r|]
    ensures |r| == n || (|r| < n && r == xs)
  {
    if |xs| <= n then xs else xs[..n]
  }

  /** Pulling an element that was just pushed onto a list that did not hold
      it gives the list back. */
  lemma {:induction false} RemoveAfterAppend<T(!new)>(xs: seq<T>, x: T)
    requires x !in xs
    ensures RemoveAll(xs + [x], x) == xs
  {
    if xs == [] {
      assert [x][1..] == [];
    } else {
      assert (xs + [x])[1..] == xs[1..] + [x];
      RemoveAfterAppend(xs[1..], x);
      assert [xs[0]] + xs[1..] == xs;
    }
  }

  /** A prefix of a subsequence of `b` is again a subsequence of `b`. */
  lemma {:induction false} SubsequencePrefix<T>(a: seq<T>, b: seq<T>, n: nat)
    requires IsSubsequence(a, b) && n <= |a|
    ensures IsSubsequence(a[..n], b)
    decreases |b|
  {
    if n == 0 {
      assert a[..n] == [];
    } else if a[0] == b[0] && IsSubsequence(a[1..], b[1..]) {
      SubsequencePrefix(a[1..], b[1..], n - 1);
      assert a[..n][1..] == a[1..][..n - 1];
    } else {
      SubsequencePrefix(a, b[1..], n);
    }
  }

  /** The first `n` elements of `xs` keep their order in `xs`. */
  lemma TakeIsSubsequence<T>(xs: seq<T>, ys: seq<T>, n: nat)
    requires IsSubsequence(xs, ys)
    ensures IsSubsequence(Take(xs, n), ys)
  {
    if n < |xs| {
      SubsequencePrefix(xs, ys, n);
    }
  }
}

=== FILE: database.dfy ===
/** The in-memory store every handler reads and writes, the reply a handler
    produces, and the integrity conditions the database's schemas and unique
    indexes (together with the handlers' own checks) keep. */
module Database {
  import opened Basics
  import opened Records

  /** The three collections. Users are never deleted; every new document
      takes the id `nextId`. */
  datatype Store = Store(
    users: map<UserId, User>,
    posts: map<PostId, Post>,
    notifications: seq<Notification>,
    nextId: nat)

  /** A user as the handlers send it back: every field but the password. */
  datatype Profile = Profile(
    id: UserId,
    fullName: string,
    username: string,
    email: string,
    profileImg: string,
    coverImg: string,
    bio: string,
    link: string,
    followers: seq<UserId>,
    following: seq<UserId>)

  /** The fields of `u` the handlers send back, under its id. */
  function ProfileOf(id: UserId, u: User): (p: Profile)
    ensures p.id == id && p.username == u.username && p.fullName == u.fullName && p.email == u.email
    ensures p.profileImg == u.profileImg && p.coverImg == u.coverImg && p.bio == u.bio && p.link == u.link
    ensures p.followers == u.followers && p.following == u.following
  {
    Profile(id, u.fullName, u.username, u.email, u.profileImg, u.coverImg, u.bio, u.link, u.followers, u.following)
  }

  /** A post together with its `_id`. */
  datatype PostEntry = PostEntry(id: PostId, post: Post)

  /** Calls into services outside the store: the image host and the
      session cookie. */
  datatype Effect =
    | Upload(source: string)
    | Destroy(publicId: string)
    | SetTokenCookie(user: UserId)

  /** The JSON body of a response. */
  datatype Body =
    | Error(error: string)
    | Message(message: string)
    | PostBody(entry: PostEntry)
    | LikesBody(likes: seq<UserId>)
    | PostsBody(posts: seq<PostEntry>)
    | ProfileBody(profile: Profile)
    | ProfilesBody(profiles: seq<Profile>)
    | NullBody

  /** The result of one request: the store afterwards, the HTTP status,
      the body and the outside calls made, in order. */
  datatype Reply = Reply(store: Store, status: nat, body: Body, effects: seq<Effect>)

  const OK: nat := 200
  const CREATED: nat := 201
  const BAD_REQUEST: nat := 400
  const UNAUTHORIZED: nat := 401
  const NOT_FOUND: nat := 404
  const SERVER_ERROR: nat := 500

  /** A client error: nothing stored, nothing called. */
  function Reject(s: Store, status: nat, error: string): (r: Reply)
    ensures r.store == s && r.status == status && r.body.Error? && r.effects == []
  {
    Reply(s, status, Error(error), [])
  }

  predicate UsernameTaken(users: map<UserId, User>, name: string)
  {
    exists u :: u in users && users[u].username == name
  }

  predicate EmailTaken(users: map<UserId, User>, email: string)
  {
    exists u :: u in users && users[u].email == email
  }

  /** `User.findOne({ username })`, searching the ids below `bound`. */
  function FindByUsername(users: map<UserId, User>, name: string, bound: nat): (r: Option<UserId>)
    ensures r.Some? ==> r.value < bound && r.value in users && users[r.value].username == name
    ensures r.None? ==> forall u :: u in users && u < bound ==> users[u].username != name
    decreases bound
  {
    if bound == 0 then None
    else if bound - 1 in users && users[bound - 1].username == name then Some(bound - 1)
    else FindByUsername(users, name, bound - 1)
  }

  // ---------------------------------------------------------------------
  // Integrity of a store

  /** Every id in use was issued before `nextId`. */
  ghost predicate IdsIssued(s: Store)
  {
    && (forall u :: u in s.users ==> u < s.nextId)
    && (forall p :: p in s.posts ==> p < s.nextId)
  }

  ghost predicate RequiredUserFields(users: map<UserId, User>)
  {
    forall u :: u in users ==> HasRequiredFields(users[u])
  }

  /** The unique indexes on `username` and `email`. */
  ghost predicate UniqueHandles(users: map<UserId, User>)
  {
    forall a, b :: a in users && b in users && a != b ==>
      users[a].username != users[b].username && users[a].email != users[b].email
  }

  /** Follower and following lists refer to existing users. */
  ghost predicate KnownRelations(users: map<UserId, User>)
  {
    forall a, b :: a in users && (b in users[a].followers || b in users[a].following) ==> b in users
  }

  /** `b` is in `a`'s following list exactly when `a` is in `b`'s followers. */
  ghost predicate SymmetricFollows(users: map<UserId, User>)
  {
    forall a, b :: a in users && b in users ==> (b in users[a].following <==> a in users[b].followers)
  }

  /** Every post names an existing author, has text or an image, and every
      comment on it has text. */
  ghost predicate WellFormedPosts(s: Store)
  {
    forall p :: p in s.posts ==>
      s.posts[p].user in s.users && HasContent(s.posts[p]) && CommentsHaveText(s.posts[p])
  }

  ghost predicate Valid(s: Store)
  {
    && IdsIssued(s)
    && RequiredUserFields(s.users)
    && UniqueHandles(s.users)
    && KnownRelations(s.users)
    && SymmetricFollows(s.users)
    && WellFormedPosts(s)
  }

  /** Two user collections hold the same accounts when they differ at most
      in the users' `likedPosts`. */
  ghost predicate SameAccounts(a: map<UserId, User>, b: map<UserId, User>)
  {
    && a.Keys == b.Keys
    && forall u :: u in a ==> a[u].(likedPosts := []) == b[u].(likedPosts := [])
  }

  /** Changing only `likedPosts`, and posts in ways that keep them well
      formed, keeps a store valid. */
  lemma SameAccountsPreserveValid(s: Store, t: Store)
    requires Valid(s) && SameAccounts(s.users, t.users) && t.nextId == s.nextId
    requires t.posts.Keys <= s.posts.Keys
    requires forall p :: p in t.posts ==>
      t.posts[p].user == s.posts[p].user && t.posts[p].text == s.posts[p].text
      && t.posts[p].img == s.posts[p].img && t.posts[p].comments == s.posts[p].comments
    ensures Valid(t)
  {
    forall u | u in t.users
      ensures t.users[u].username == s.users[u].username && t.users[u].email == s.users[u].email
      ensures t.users[u].fullName == s.users[u].fullName
      ensures t.users[u].followers == s.users[u].followers && t.users[u].following == s.users[u].following
    {
      assert s.users[u].(likedPosts := []) == t.users[u].(likedPosts := []);
    }
  }

  /** Replacing one account by a record with the same relationship lists,
      its required fields present and a username and email nobody else
      holds keeps a store valid. */
  lemma ReplaceAccountKeepsValid(s: Store, id: UserId, u: User)
    requires Valid(s) && id in s.users
    requires u.followers == s.users[id].followers && u.following == s.users[id].following
    requires HasRequiredFields(u)
    requires forall v :: v in s.users && v != id ==> s.users[v].username != u.username && s.users[v].email != u.email
    ensures Valid(s.(users := s.users[id := u]))
  {
  }

  /** The users after a follow or unfollow between `a` and `b`: `b`'s
      followers and `a`'s following change only in whether they hold `a` and
      `b` respectively, both end up holding them exactly when `add` holds,
      and nothing else changes. */
  ghost predicate Toggled(su: map<UserId, User>, tu: map<UserId, User>, a: UserId, b: UserId, add: bool)
  {
    && a != b && a in su && b in su && tu.Keys == su.Keys
    && (forall u :: u in su && u != a && u != b ==> tu[u] == su[u])
    && tu[b] == su[b].(followers := tu[b].followers)
    && tu[a] == su[a].(following := tu[a].following)
    && (forall x :: x in tu[b].followers <==> if x == a then add else x in su[b].followers)
    && (forall x :: x in tu[a].following <==> if x == b then add else x in su[a].following)
  }

  /** A toggle keeps the follow lists in agreement. */
  lemma ToggleKeepsSymmetry(su: map<UserId, User>, tu: map<UserId, User>, a: UserId, b: UserId, add: bool)
    requires SymmetricFollows(su) && Toggled(su, tu, a, b, add)
    ensures SymmetricFollows(tu)
  {
    forall x, y | x in tu && y in tu
      ensures y in tu[x].following <==> x in tu[y].followers
    {
      assert y in su[x].following <==> x in su[y].followers;
    }
  }

  /** A toggle keeps the follow lists pointing at existing users. */
  lemma ToggleKeepsRelationsKnown(su: map<UserId, User>, tu: map<UserId, User>, a: UserId, b: UserId, add: bool)
    requires KnownRelations(su) && Toggled(su, tu, a, b, add)
    ensures KnownRelations(tu)
  {
  }

  /** A follow or unfollow between `a` and `b` keeps a store valid. */
  lemma ToggleKeepsValid(s: Store, t: Store, a: UserId, b: UserId, add: bool)
    requires Valid(s) && Toggled(s.users, t.users, a, b, add)
    requires t.posts == s.posts && t.nextId == s.nextId
    ensures Valid(t)
  {
    ToggleKeepsSymmetry(s.users, t.users, a, b, add);
    ToggleKeepsRelationsKnown(s.users, t.users, a, b, add);
    forall u | u in t.users
      ensures t.users[u].username == s.users[u].username && t.users[u].email == s.users[u].email
      ensures t.users[u].fullName == s.users[u].fullName
    {
    }
  }

  /** In a valid store the username search finds exactly the owner of the
      username. */
  lemma FindOwner(s: Store, id: UserId)
    requires Valid(s) && id in s.users
    ensures FindByUsername(s.users, s.users[id].username, s.nextId) == Some(id)
  {
  }

  /** In a valid store the username search fails exactly when the username
      is not taken. */
  lemma FindIffTaken(s: Store, name: string)
    requires Valid(s)
    ensures FindByUsername(s.users, name, s.nextId).None? <==> !UsernameTaken(s.users, name)
  {
  }
}

=== FILE: feeds.dfy ===
/** The post lists the feed handlers return: a selection of the posts
    collection (`Post.find(query)`) and the newest-first ordering
    (`.sort({ createdAt: -1 })`). Population of the nested user references
    is not modelled: entries carry the author's id. */
module Feeds {
  import opened Records
  import opened Database

  /** The query a feed handler passes to `Post.find`. */
  datatype Selection =
    | Everything                         // `Post.find()`
    | AuthoredBy(authors: seq<UserId>)   // `Post.find({ user: { $in: authors } })`
    | Listed(ids: seq<PostId>)           // `Post.find({ _id: { $in: ids } })`

  predicate Keeps(f: Selection, e: PostEntry)
  {
    match f
    case Everything => true
    case AuthoredBy(authors) => e.post.user in authors
    case Listed(ids) => e.id in ids
  }

  /** `e` is the stored post with its id, it is selected by `f`, and its id
      was issued below `bound`. */
  ghost predicate Selected(posts: map<PostId, Post>, f: Selection, bound: nat, e: PostEntry)
  {
    e.id < bound && e.id in posts && e.post == posts[e.id] && Keeps(f, e)
  }

  predicate IdsAscending(es: seq<PostEntry>)
  {
    forall i, j :: 0 <= i < j < |es| ==> es[i].id < es[j].id
  }

  /** The selected posts in the collection's natural (insertion, hence id)
      order. */
  function Collect(posts: map<PostId, Post>, f: Selection, bound: nat): (r: seq<PostEntry>)
    ensures forall e :: e in r <==> Selected(posts, f, bound, e)
    ensures IdsAscending(r)
    decreases bound
  {
    if bound == 0 then []
    else
      var rest := Collect(posts, f, bound - 1);
      if bound - 1 in posts && Keeps(f, PostEntry(bound - 1, posts[bound - 1])) then
        assert forall i :: 0 <= i < |rest| ==> rest[i] in rest && rest[i].id < bound - 1;
        rest + [PostEntry(bound - 1, posts[bound - 1])]
      else rest
  }

  predicate NewestFirst(es: seq<PostEntry>)
  {
    forall i, j :: 0 <= i < j < |es| ==> es[i].post.createdAt >= es[j].post.createdAt
  }

  /** Places `e` into a newest-first list. */
  function Insert(e: PostEntry, es: seq<PostEntry>): (r: seq<PostEntry>)
    requires NewestFirst(es)
    ensures NewestFirst(r)
    ensures multiset(r) == multiset(es) + multiset{e}
  {
    if es == [] then [e]
    else if e.post.createdAt >= es[0].post.createdAt then [e] + es
    else
      var rest := Insert(e, es[1..]);
      assert es == [es[0]] + es[1..];
      assert forall x :: x in rest ==> x.post.createdAt <= es[0].post.createdAt by {
        forall x | x in rest
          ensures x.post.createdAt <= es[0].post.createdAt
        {
          assert x in multiset(rest);
          if x != e {
            assert x in multiset(es[1..]);
            assert x in es[1..];
          }
        }
      }
      [es[0]] + rest
  }

  /** `.sort({ createdAt: -1 })`: the same entries, newest first. MongoDB
      leaves the order of equal timestamps open; so does this contract. */
  function SortNewestFirst(es: seq<PostEntry>): (r: seq<PostEntry>)
    ensures NewestFirst(r)
    ensures multiset(r) == multiset(es)
  {
    if es == [] then []
    else
      assert es == [es[0]] + es[1..];
      Insert(es[0], SortNewestFirst(es[1..]))
  }

  /** In a list with ascending ids no entry occurs twice. */
  lemma {:induction false} AscendingOccursOnce(es: seq<PostEntry>, e: PostEntry)
    requires IdsAscending(es) && e in es
    ensures multiset(es)[e] == 1
  {
    assert es == [es[0]] + es[1..];
    if es[0] == e {
      assert e !in es[1..];
    } else {
      AscendingOccursOnce(es[1..], e);
    }
  }

  /** An empty collection selects nothing. */
  lemma {:induction false} CollectNothing(f: Selection, bound: nat)
    ensures Collect(map[], f, bound) == []
  {
    if bound > 0 {
      CollectNothing(f, bound - 1);
    }
  }

  /** A sorted feed: exactly the selected posts, each once, newest first. */
  function Feed(posts: map<PostId, Post>, f: Selection, bound: nat): (r: seq<PostEntry>)
    ensures NewestFirst(r)
    ensures forall e :: e in r <==> Selected(posts, f, bound, e)
    ensures forall e :: e in r ==> multiset(r)[e] == 1
  {
    var found := Collect(posts, f, bound);
    var r := SortNewestFirst(found);
    assert forall e :: e in r <==> e in found by {
      forall e ensures e in r <==> e in found {
        assert e in r <==> e in multiset(r);
        assert e in found <==> e in multiset(found);
      }
    }
    assert forall e :: e in r ==> multiset(r)[e] == 1 by {
      forall e | e in r ensures multiset(r)[e] == 1 {
        AscendingOccursOnce(found, e);
      }
    }
    r
  }
}

=== FILE: media.dfy ===
/** The image host's public id of a stored image URL, which the delete-post
    and update-profile handlers pass to `cloudinary.uploader.destroy`:
    `url.split("/").pop().split(".")[0]`. */
module Media {

  /** `url.split("/").pop()`: the text after the last '/', or all of `url`
      when it has none. */
  function LastSegment(url: string): (r: string)
    ensures '/' !in r
    ensures |r| <= |url| && r == url[|url| - |r|..]
    ensures |r| < |url| ==> url[|url| - |r| - 1] == '/'
    decreases |url|
  {
    if url == [] then []
    else if url[|url| - 1] == '/' then []
    else
      var init := url[..|url| - 1];
      var rest := LastSegment(init);
      var r := rest + [url[|url| - 1]];
      assert url == init + [url[|url| - 1]];
      assert |r| < |url| ==> url[|url| - |r| - 1] == init[|init| - |rest| - 1];
      assert r == url[|url| - |r|..];
      r
  }

  /** `s.split(".")[0]`: the text before the first '.', or all of `s` when
      it has none. */
  function BeforeFirstDot(s: string): (r: string)
    ensures '.' !in r
    ensures |r| <= |s| && r == s[..|r|]
    ensures |r| < |s| ==> s[|r|] == '.'
  {
    if s == [] then []
    else if s[0] == '.' then []
    else [s[0]] + BeforeFirstDot(s[1..])
  }

  /** The public id of a stored image: the last path segment up to its
      first '.'. It never contains a '/' or a '.'. */
  function ImageId(url: string): (r: string)
    ensures '/' !in r && '.' !in r
  {
    var segment := LastSegment(url);
    var id := BeforeFirstDot(segment);
    assert forall k :: 0 <= k < |id| ==> id[k] == segment[k];
    id
  }

  lemma {:induction false} LastSegmentAfterSlash(dir: string, name: string)
    requires '/' !in name
    ensures LastSegment(dir + "/" + name) == name
    decreases |name|
  {
    var url := dir + "/" + name;
    if name == [] {
      assert url[|url| - 1] == '/';
    } else {
      var init := name[..|name| - 1];
      assert url[..|url| - 1] == dir + "/" + init;
      assert url[|url| - 1] == name[|name| - 1];
      assert name[|name| - 1] in name;
      LastSegmentAfterSlash(dir, init);
      assert init + [name[|name| - 1]] == name;
    }
  }

  lemma {:induction false} BeforeDotOf(name: string, rest: string)
    requires '.' !in name
    ensures BeforeFirstDot(name + "." + rest) == name
    decreases |name|
  {
    var s := name + "." + rest;
    if name == [] {
      assert s[0] == '.';
    } else {
      assert s[0] == name[0] && name[0] in name;
      assert s[1..] == name[1..] + "." + rest;
      BeforeDotOf(name[1..], rest);
      assert [name[0]] + name[1..] == name;
    }
  }

  /** A URL ending in `/<name>.<extension>` yields `name`, whatever comes
      before the last '/' (so "abc/def/ghi/jkl.jpg" yields "jkl"). */
  lemma ImageIdOfPath(dir: string, name: string, extension: string)
    requires '/' !in name && '.' !in name && '/' !in extension
    ensures ImageId(dir + "/" + name + "." + extension) == name
  {
    var file := name + "." + extension;
    assert '/' !in file by {
      assert forall k :: 0 <= k < |file| ==> file[k] == (if k < |name| then name[k] else if k == |name| then '.' else extension[k - |name| - 1]);
    }
    assert dir + "/" + name + "." + extension == dir + "/" + file;
    LastSegmentAfterSlash(dir, file);
    BeforeDotOf(name, extension);
  }

  lemma ImageIdExample()
    ensures ImageId("abc/def/ghi/jkl.jpg") == "jkl"
  {
    assert "abc/def/ghi/jkl.jpg" == "abc/def/ghi" + "/" + "jkl" + "." + "jpg";
    ImageIdOfPath("abc/def/ghi", "jkl", "jpg");
  }
}

=== FILE: posts.dfy ===
/** The post handlers: create, delete, comment, like/unlike and the four
    feeds. Each is a pure transition from the store, the authenticated
    requester and the request's fields to a reply. */
module Posts {
  import opened Basics
  import opened Records
  import opened Database
  import opened Media
  import opened Feeds

  // ---------------------------------------------------------------------
  // Create

  /** `createPost`. `uploadedUrl` is the `secure_url` the image host returns
      for `img`; it is used only when an image is supplied. `now` is the
      creation timestamp. */
  function CreatePost(s: Store, requester: UserId, text: string, img: string, uploadedUrl: string, now: nat): (r: Reply)
    // the requester is looked up before the content is checked
    ensures requester !in s.users ==> r == Reject(s, NOT_FOUND, "User not found")
    ensures requester in s.users && text == "" && img == "" ==>
      r == Reject(s, BAD_REQUEST, "Post must contain text or image")
    ensures r.status == CREATED <==> requester in s.users && (text != "" || img != "")
    ensures r.status == CREATED ==>
      && r.body.PostBody?
      && var e := r.body.entry;
      && e.id == s.nextId
      && r.store == s.(posts := s.posts[e.id := e.post], nextId := s.nextId + 1)
      && e.post.user == requester
      && e.post.text == text
      && e.post.img == (if img != "" then uploadedUrl else "")
      && e.post.likes == [] && e.post.comments == []
      && e.post.createdAt == now
      && r.effects == (if img != "" then [Upload(img)] else [])
  {
    if requester !in s.users then Reject(s, NOT_FOUND, "User not found")
    else if text == "" && img == "" then Reject(s, BAD_REQUEST, "Post must contain text or image")
    else
      var id := s.nextId;
      var post := NewPost(requester, text, if img != "" then uploadedUrl else img, now);
      Reply(s.(posts := s.posts[id := post], nextId := id + 1), CREATED, PostBody(PostEntry(id, post)),
            if img != "" then [Upload(img)] else [])
  }

  // ---------------------------------------------------------------------
  // Delete

  /** The image-host call that removes a post's image, if it has one. */
  function DestroyImage(img: string): (calls: seq<Effect>)
    ensures |calls| <= 1
    ensures calls != [] <==> img != ""
    ensures forall x :: x in calls ==> x == Destroy(ImageId(img))
  {
    if img != "" then [Destroy(ImageId(img))] else []
  }

  /** `deletePost`. */
  function DeletePost(s: Store, requester: UserId, postId: PostId): (r: Reply)
    ensures postId !in s.posts ==> r == Reject(s, NOT_FOUND, "Post not found")
    ensures postId in s.posts && s.posts[postId].user != requester ==>
      r == Reject(s, UNAUTHORIZED, "You are not authorized to delete this post")
    ensures r.status == OK <==> postId in s.posts && s.posts[postId].user == requester
    ensures r.status == OK ==>
      && r.store == s.(posts := s.posts - {postId})
      && postId !in r.store.posts
      && r.body == Message("Post deleted successfully")
      && |r.effects| <= 1
      && (r.effects != [] <==> s.posts[postId].img != "")
      && (forall x :: x in r.effects ==> x == Destroy(ImageId(s.posts[postId].img)))
  {
    if postId !in s.posts then Reject(s, NOT_FOUND, "Post not found")
    else if s.posts[postId].user != requester then
      Reject(s, UNAUTHORIZED, "You are not authorized to delete this post")
    else
      Reply(s.(posts := s.posts - {postId}), OK, Message("Post deleted successfully"),
            DestroyImage(s.posts[postId].img))
  }

  // ---------------------------------------------------------------------
  // Comment

  /** `commentOnPost`. */
  function CommentOnPost(s: Store, requester: UserId, postId: PostId, text: string): (r: Reply)
    // the text is checked before the post is looked up
    ensures text == "" ==> r == Reject(s, BAD_REQUEST, "Comment must contain text")
    ensures text != "" && postId !in s.posts ==> r == Reject(s, NOT_FOUND, "Post not found")
    ensures r.status == OK <==> text != "" && postId in s.posts
    ensures r.status == OK ==>
      && var before := s.posts[postId].comments;
      && postId in r.store.posts
      && var after := r.store.posts[postId].comments;
      && |after| == |before| + 1
      && after[..|before|] == before
      && after[|before|] == Comment(text, requester)
      && r.store.posts[postId] == s.posts[postId].(comments := after)
      && r.store == s.(posts := s.posts[postId := r.store.posts[postId]])
      && r.body == PostBody(PostEntry(postId, r.store.posts[postId]))
      && r.effects == []
  {
    if text == "" then Reject(s, BAD_REQUEST, "Comment must contain text")
    else if postId !in s.posts then Reject(s, NOT_FOUND, "Post not found")
    else
      var post := s.posts[postId];
      var commented := post.(comments := post.comments + [Comment(text, requester)]);
      Reply(s.(posts := s.posts[postId := commented]), OK, PostBody(PostEntry(postId, commented)), [])
  }

  // ---------------------------------------------------------------------
  // Like / unlike

  /** The users after the like handler mirrors a like (`add`) or an unlike
      on the requester's `likedPosts`; an update matching no user changes
      nothing. */
  function MirrorLike(users: map<UserId, User>, requester: UserId, postId: PostId, add: bool): (r: map<UserId, User>)
    ensures r.Keys == users.Keys
    ensures forall u :: u in users && u != requester ==> r[u] == users[u]
    ensures requester in users ==>
      r[requester] == users[requester].(likedPosts :=
        if add then users[requester].likedPosts + [postId] else RemoveAll(users[requester].likedPosts, postId))
  {
    if requester !in users then users
    else
      var me := users[requester];
      users[requester := me.(likedPosts := if add then me.likedPosts + [postId] else RemoveAll(me.likedPosts, postId))]
  }

  /** `likeUnlikePost`: a toggle on the post's `likes` list, mirrored on the
      requester's `likedPosts`; only a like writes a notification. */
  function LikeUnlikePost(s: Store, requester: UserId, postId: PostId): (r: Reply)
    ensures postId !in s.posts ==> r == Reject(s, NOT_FOUND, "Post not found")
    ensures r.status == OK <==> postId in s.posts
    ensures postId in s.posts && requester in s.posts[postId].likes ==>
      // unlike: every occurrence of the requester leaves the list, no notification
      && var likes := s.posts[postId].likes;
      && postId in r.store.posts
      && var likes' := r.store.posts[postId].likes;
      && requester !in likes'
      && multiset(likes') == multiset(likes)[requester := 0]
      && IsSubsequence(likes', likes)
      && r.body == LikesBody(likes')
      && r.store.posts == s.posts[postId := s.posts[postId].(likes := likes')]
      && r.store.notifications == s.notifications
    ensures postId in s.posts && requester !in s.posts[postId].likes ==>
      // like: the requester is appended and the author is notified once
      && var likes' := s.posts[postId].likes + [requester];
      && r.body == LikesBody(likes')
      && r.store.posts == s.posts[postId := s.posts[postId].(likes := likes')]
      && r.store.notifications == s.notifications + [NewNotification(requester, s.posts[postId].user, Like)]
    ensures r.store.nextId == s.nextId && r.effects == []
    ensures r.store.users.Keys == s.users.Keys
    ensures forall u :: u in s.users && u != requester ==> r.store.users[u] == s.users[u]
    // the requester's `likedPosts` mirrors the toggle; the rest of the record stays
    ensures postId in s.posts && requester in s.users ==>
      && var me := s.users[requester];
      && var liked := r.store.users[requester].likedPosts;
      && r.store.users[requester] == me.(likedPosts := liked)
      && (requester in s.posts[postId].likes ==>
            && (forall x :: x in liked <==> x in me.likedPosts && x != postId)
            && multiset(liked) == multiset(me.likedPosts)[postId := 0])
      && (requester !in s.posts[postId].likes ==> liked == me.likedPosts + [postId])
  {
    if postId !in s.posts then Reject(s, NOT_FOUND, "Post not found")
    else
      var post := s.posts[postId];
      if requester in post.likes then
        var likes := RemoveAll(post.likes, requester);
        var users := MirrorLike(s.users, requester, postId, false);
        Reply(s.(posts := s.posts[postId := post.(likes := likes)], users := users), OK, LikesBody(likes), [])
      else
        var likes := post.likes + [requester];
        var users := MirrorLike(s.users, requester, postId, true);
        var note := NewNotification(requester, post.user, Like);
        Reply(s.(posts := s.posts[postId := post.(likes := likes)], users := users,
                 notifications := s.notifications + [note]),
              OK, LikesBody(likes), [])
  }

  /** The like handler as the code runs against the schema it ships with:
      `likedPosts` is not a declared path of the User schema, and Mongoose's
      default strict mode drops undeclared paths from an update, so both
      `User.updateOne` calls leave the user unchanged. */
  function LikeUnlikePostAsWritten(s: Store, requester: UserId, postId: PostId): (r: Reply)
    ensures r.store.users == s.users
    ensures r.status == LikeUnlikePost(s, requester, postId).status
  {
    var intended := LikeUnlikePost(s, requester, postId);
    intended.(store := intended.store.(users := s.users))
  }

  // ---------------------------------------------------------------------
  // Feeds

  /** `getAllPosts`. */
  function GetAllPosts(s: Store): (r: Reply)
    ensures r.store == s && r.effects == []
    ensures r.status == NOT_FOUND ==> r.body == Error("No posts found")
    ensures r.status == OK ==> r.body.PostsBody? && r.body.posts == Feed(s.posts, Everything, s.nextId) && r.body.posts != []
    ensures r.status == OK || r.status == NOT_FOUND
    ensures r.status == NOT_FOUND <==> Feed(s.posts, Everything, s.nextId) == []
  {
    var posts := Feed(s.posts, Everything, s.nextId);
    if |posts| == 0 then Reject(s, NOT_FOUND, "No posts found")
    else Reply(s, OK, PostsBody(posts), [])
  }

  /** `getFollowingPosts`. */
  function GetFollowingPosts(s: Store, requester: UserId): (r: Reply)
    ensures r.store == s && r.effects == []
    ensures requester !in s.users ==> r == Reject(s, NOT_FOUND, "User not found")
    ensures requester in s.users ==>
      r.status == OK && r.body == PostsBody(Feed(s.posts, AuthoredBy(s.users[requester].following), s.nextId))
  {
    if requester !in s.users then Reject(s, NOT_FOUND, "User not found")
    else Reply(s, OK, PostsBody(Feed(s.posts, AuthoredBy(s.users[requester].following), s.nextId)), [])
  }

  /** `getUserPosts`. */
  function GetUserPosts(s: Store, username: string): (r: Reply)
    ensures r.store == s && r.effects == []
    ensures FindByUsername(s.users, username, s.nextId).None? ==> r == Reject(s, NOT_FOUND, "User not found")
    ensures FindByUsername(s.users, username, s.nextId).Some? ==>
      var author := FindByUsername(s.users, username, s.nextId).value;
      r.status == OK && r.body == PostsBody(Feed(s.posts, AuthoredBy([author]), s.nextId))
  {
    match FindByUsername(s.users, username, s.nextId)
    case None => Reject(s, NOT_FOUND, "User not found")
    case Some(author) => Reply(s, OK, PostsBody(Feed(s.posts, AuthoredBy([author]), s.nextId)), [])
  }

  /** `getLikedPosts`: the stored posts whose ids are in the user's
      `likedPosts`, in the collection's natural order (no sort). */
  function GetLikedPosts(s: Store, userId: UserId): (r: Reply)
    ensures r.store == s && r.effects == []
    ensures userId !in s.users ==> r == Reject(s, NOT_FOUND, "User not found")
    ensures userId in s.users ==>
      && r.status == OK && r.body.PostsBody?
      && (forall e :: e in r.body.posts <==> Selected(s.posts, Listed(s.users[userId].likedPosts), s.nextId, e))
      // each post is listed once, even when `likedPosts` repeats its id
      && (forall e :: e in r.body.posts ==> multiset(r.body.posts)[e] == 1)
  {
    if userId !in s.users then Reject(s, NOT_FOUND, "User not found")
    else
      var found := Collect(s.posts, Listed(s.users[userId].likedPosts), s.nextId);
      assert forall e :: e in found ==> multiset(found)[e] == 1 by {
        forall e | e in found ensures multiset(found)[e] == 1 {
          AscendingOccursOnce(found, e);
        }
      }
      Reply(s, OK, PostsBody(found), [])
  }

  // ---------------------------------------------------------------------
  // Properties

  /** Deleting a post one has just created gives the posts collection back;
      only the id counter has moved. */
  lemma CreateThenDelete(s: Store, requester: UserId, text: string, img: string, url: string, now: nat)
    requires Valid(s)
    requires CreatePost(s, requester, text, img, url, now).status == CREATED
    ensures var created := CreatePost(s, requester, text, img, url, now);
      var deleted := DeletePost(created.store, requester, created.body.entry.id);
      && deleted.status == OK
      && deleted.store == s.(nextId := s.nextId + 1)
      && deleted.effects == (if img != "" && url != "" then [Destroy(ImageId(url))] else [])
  {
    var created := CreatePost(s, requester, text, img, url, now);
    assert s.nextId !in s.posts;
    assert created.store.posts - {s.nextId} == s.posts;
  }

  /** Liking and then unliking a post gives the store back, except for the
      like notification, which stays. */
  lemma LikeThenUnlike(s: Store, requester: UserId, postId: PostId)
    requires postId in s.posts && requester !in s.posts[postId].likes
    requires requester in s.users ==> postId !in s.users[requester].likedPosts
    ensures var liked := LikeUnlikePost(s, requester, postId);
      var unliked := LikeUnlikePost(liked.store, requester, postId);
      && unliked.status == OK
      && unliked.body == LikesBody(s.posts[postId].likes)
      && unliked.store == s.(notifications := s.notifications + [NewNotification(requester, s.posts[postId].user, Like)])
  {
    var post := s.posts[postId];
    LikeReply(s, requester, postId);
    var mid := LikedStore(s, requester, postId);
    UnlikeReply(mid, requester, postId);
    UnlikeUndoesLike(s, requester, postId);
  }

  /** The store after the like branch. */
  function LikedStore(s: Store, requester: UserId, postId: PostId): (t: Store)
    requires postId in s.posts
    ensures postId in t.posts && t.posts[postId].likes == s.posts[postId].likes + [requester]
    ensures t.posts[postId] == s.posts[postId].(likes := t.posts[postId].likes)
  {
    var post := s.posts[postId];
    s.(posts := s.posts[postId := post.(likes := post.likes + [requester])],
       users := MirrorLike(s.users, requester, postId, true),
       notifications := s.notifications + [NewNotification(requester, post.user, Like)])
  }

  /** The unlike branch applied to the liked store restores everything but
      the notification. */
  lemma UnlikeUndoesLike(s: Store, requester: UserId, postId: PostId)
    requires postId in s.posts && requester !in s.posts[postId].likes
    requires requester in s.users ==> postId !in s.users[requester].likedPosts
    ensures var mid := LikedStore(s, requester, postId);
      && RemoveAll(mid.posts[postId].likes, requester) == s.posts[postId].likes
      && mid.(posts := mid.posts[postId := mid.posts[postId].(likes := s.posts[postId].likes)],
              users := MirrorLike(mid.users, requester, postId, false))
         == s.(notifications := s.notifications + [NewNotification(requester, s.posts[postId].user, Like)])
  {
    var post := s.posts[postId];
    var mid := LikedStore(s, requester, postId);
    RemoveAfterAppend(post.likes, requester);
    var users2 := MirrorLike(mid.users, requester, postId, false);
    assert users2 == s.users by {
      if requester in s.users {
        RemoveAfterAppend(s.users[requester].likedPosts, postId);
        assert users2[requester] == s.users[requester];
      }
    }
    assert mid.posts[postId := post] == s.posts;
  }

  /** The like branch of the handler, written out. */
  lemma LikeReply(s: Store, requester: UserId, postId: PostId)
    requires postId in s.posts && requester !in s.posts[postId].likes
    ensures LikeUnlikePost(s, requester, postId)
        == Reply(LikedStore(s, requester, postId), OK, LikesBody(s.posts[postId].likes + [requester]), [])
  {
  }

  /** The unlike branch of the handler, written out. */
  lemma UnlikeReply(s: Store, requester: UserId, postId: PostId)
    requires postId in s.posts && requester in s.posts[postId].likes
    ensures var post := s.posts[postId];
      var likes := RemoveAll(post.likes, requester);
      LikeUnlikePost(s, requester, postId)
        == Reply(s.(posts := s.posts[postId := post.(likes := likes)],
                    users := MirrorLike(s.users, requester, postId, false)),
                 OK, LikesBody(likes), [])
  {
  }

  /** The intended behaviour: after a like, the post is among the liker's
      liked posts and the liked-posts feed shows it. */
  lemma LikeRecordsLikedPost(s: Store, requester: UserId, postId: PostId)
    requires IdsIssued(s)
    requires postId in s.posts && requester !in s.posts[postId].likes && requester in s.users
    ensures var liked := LikeUnlikePost(s, requester, postId);
      && postId in liked.store.users[requester].likedPosts
      && var feed := GetLikedPosts(liked.store, requester);
      && feed.body.PostsBody?
      && PostEntry(postId, liked.store.posts[postId]) in feed.body.posts
  {
  }

  /** As written, a like never reaches the liker's `likedPosts`: a post the
      user had not liked before is still missing from the list afterwards, so
      the liked-posts feed cannot show it. */
  lemma LikeLostAsWritten(s: Store, requester: UserId, postId: PostId)
    requires IdsIssued(s)
    requires postId in s.posts && requester !in s.posts[postId].likes && requester in s.users
    requires postId !in s.users[requester].likedPosts
    ensures var liked := LikeUnlikePostAsWritten(s, requester, postId);
      && liked.status == OK
      && requester in liked.store.posts[postId].likes
      && postId !in liked.store.users[requester].likedPosts
      && var feed := GetLikedPosts(liked.store, requester);
      && feed.body.PostsBody?
      && PostEntry(postId, liked.store.posts[postId]) !in feed.body.posts
  {
  }

  /** In a valid store `getAllPosts` answers 404 exactly when there are no
      posts, and otherwise lists every post once, newest first. */
  lemma AllPostsFeed(s: Store)
    requires Valid(s)
    ensures GetAllPosts(s).status == NOT_FOUND <==> s.posts == map[]
    ensures GetAllPosts(s).status == OK ==>
      var feed := GetAllPosts(s).body.posts;
      && NewestFirst(feed)
      && (forall e :: e in feed <==> e.id in s.posts && e.post == s.posts[e.id])
      && (forall e :: e in feed ==> multiset(feed)[e] == 1)
  {
    var feed := Feed(s.posts, Everything, s.nextId);
    if s.posts != map[] {
      var p :| p in s.posts;
      assert Selected(s.posts, Everything, s.nextId, PostEntry(p, s.posts[p]));
      assert PostEntry(p, s.posts[p]) in feed;
    } else {
      CollectNothing(Everything, s.nextId);
    }
  }

  /** The following feed holds exactly the posts written by users the
      requester follows, each once, newest first. */
  lemma FollowingFeed(s: Store, requester: UserId)
    requires Valid(s) && requester in s.users
    ensures var feed := GetFollowingPosts(s, requester).body.posts;
      && NewestFirst(feed)
      && (forall e :: e in feed <==>
            e.id in s.posts && e.post == s.posts[e.id] && e.post.user in s.users[requester].following)
      && (forall e :: e in feed ==> multiset(feed)[e] == 1)
  {
  }

  /** A user's feed holds exactly the posts that user wrote, newest first. */
  lemma UserFeed(s: Store, username: string, author: UserId)
    requires Valid(s) && author in s.users && s.users[author].username == username
    ensures var r := GetUserPosts(s, username);
      && r.status == OK
      && NewestFirst(r.body.posts)
      && (forall e :: e in r.body.posts <==> e.id in s.posts && e.post == s.posts[e.id] && e.post.user == author)
  {
    FindOwner(s, author);
  }

  // ---------------------------------------------------------------------
  // Integrity

  lemma CreatePreservesValid(s: Store, requester: UserId, text: string, img: string, url: string, now: nat)
    requires Valid(s) && url != ""
    ensures Valid(CreatePost(s, requester, text, img, url, now).store)
  {
  }

  lemma DeletePreservesValid(s: Store, requester: UserId, postId: PostId)
    requires Valid(s)
    ensures Valid(DeletePost(s, requester, postId).store)
  {
  }

  lemma CommentPreservesValid(s: Store, requester: UserId, postId: PostId, text: string)
    requires Valid(s)
    ensures Valid(CommentOnPost(s, requester, postId, text).store)
  {
  }

  lemma LikePreservesValid(s: Store, requester: UserId, postId: PostId)
    requires Valid(s)
    ensures Valid(LikeUnlikePost(s, requester, postId).store)
  {
    var t := LikeUnlikePost(s, requester, postId).store;
    LikeTouchesOnlyLikes(s, requester, postId);
    SameAccountsPreserveValid(s, t);
  }

  /** A like or unlike changes users only in `likedPosts` and posts only in
      `likes`. */
  lemma LikeTouchesOnlyLikes(s: Store, requester: UserId, postId: PostId)
    ensures var t := LikeUnlikePost(s, requester, postId).store;
      && SameAccounts(s.users, t.users) && t.nextId == s.nextId
      && t.posts.Keys == s.posts.Keys
      && forall p :: p in t.posts ==> t.posts[p] == s.posts[p].(likes := t.posts[p].likes)
  {
    var t := LikeUnlikePost(s, requester, postId).store;
    forall u | u in s.users
      ensures s.users[u].(likedPosts := []) == t.users[u].(likedPosts := [])
    {
      if u == requester && postId in s.posts {
        assert t.users[u] == s.users[u].(likedPosts := t.users[u].likedPosts);
      }
    }
  }
}

=== FILE: records.dfy ===
/** The documents the backend stores: the User and Post Mongoose schemas,
    the comments embedded in a post, and the notifications the like and
    follow handlers write. Object ids are natural numbers; the `timestamps`
    option is reduced to a post's `createdAt`. */
module Records {

  type UserId = nat
  type PostId = nat

  /** A bcrypt digest. The library is replaced by an injective constructor:
      no handler reads the plaintext back out of a digest, they only compare
      a candidate password with it. Salting is not modelled. */
  datatype Digest = Bcrypt(string)

  /** `bcrypt.hash(password, salt)`. */
  function Hash(password: string): (d: Digest)
    ensures d == Bcrypt(password)
  {
    Bcrypt(password)
  }

  /** The model's assumption that two passwords share a digest only when
      they are equal. bcrypt itself reads only the first 72 UTF-8 bytes of a
      password, so passwords that agree on those bytes match the same
      digest; the model does not follow that truncation. */
  lemma HashInjective(a: string, b: string)
    ensures Hash(a) == Hash(b) <==> a == b
  {
  }

  /** `bcrypt.compare(password, digest)`. */
  predicate Matches(password: string, digest: Digest)
  {
    digest == Hash(password)
  }

  /** A user document. `likedPosts` is read and written by the like handler
      but is not declared by the schema; it is kept here as the handlers
      intend it. */
  datatype User = User(
    username: string,
    fullName: string,
    password: Digest,
    email: string,
    followers: seq<UserId>,
    following: seq<UserId>,
    profileImg: string,
    coverImg: string,
    bio: string,
    link: string,
    likedPosts: seq<PostId>)

  /** A user created from the four fields signup supplies; every other field
      takes its schema default. */
  function NewUser(fullName: string, username: string, email: string, password: Digest): (u: User)
    ensures u.fullName == fullName && u.username == username && u.email == email && u.password == password
    ensures u.followers == [] && u.following == [] && u.likedPosts == []
    ensures u.profileImg == "" && u.coverImg == "" && u.bio == "" && u.link == ""
  {
    User(username, fullName, password, email, [], [], "", "", "", "", [])
  }

  /** The schema's `required` string fields are present: Mongoose rejects
      the empty string for a required String path. */
  predicate HasRequiredFields(u: User)
  {
    u.username != "" && u.fullName != "" && u.email != ""
  }

  datatype Comment = Comment(text: string, user: UserId)

  /** A post document. A missing `text` or `img` is written "". */
  datatype Post = Post(
    user: UserId,
    text: string,
    img: string,
    likes: seq<UserId>,
    comments: seq<Comment>,
    createdAt: nat)

  /** A post as it is first saved: no likes and no comments yet. */
  function NewPost(author: UserId, text: string, img: string, createdAt: nat): (p: Post)
    ensures p.user == author && p.text == text && p.img == img && p.createdAt == createdAt
    ensures p.likes == [] && p.comments == []
  {
    Post(author, text, img, [], [], createdAt)
  }

  /** Every embedded comment has its required text. */
  predicate CommentsHaveText(p: Post)
  {
    forall c :: c in p.comments ==> c.text != ""
  }

  /** The create handler refuses a post with neither text nor image. */
  predicate HasContent(p: Post)
  {
    p.text != "" || p.img != ""
  }

  datatype NotificationKind = Follow | Like

  datatype Notification = Notification(from: UserId, to: UserId, kind: NotificationKind, read: bool)

  /** A notification as the handlers create it: only `from`, `to` and
      `type` are given, so it starts unread. */
  function NewNotification(from: UserId, to: UserId, kind: NotificationKind): (n: Notification)
    ensures n.from == from && n.to == to && n.kind == kind && !n.read
  {
    Notification(from, to, kind, false)
  }
}

=== FILE: users.dfy ===
/** The user handlers: profile lookup, follow/unfollow, suggestions and
    profile update. */
module Users {
  import opened Basics
  import opened Records
  import opened Database
  import opened Media
  import Auth

  // ---------------------------------------------------------------------
  // Profile

  /** `getUserProfile`: the user with that username, without the password. */
  function GetUserProfile(s: Store, username: string): (r: Reply)
    ensures r.store == s && r.effects == []
    ensures r.status == OK <==> FindByUsername(s.users, username, s.nextId).Some?
    ensures r.status != OK ==> r == Reject(s, NOT_FOUND, "User not found")
    ensures r.status == OK ==>
      var id := FindByUsername(s.users, username, s.nextId).value;
      r.body == ProfileBody(ProfileOf(id, s.users[id])) && r.body.profile.username == username
  {
    match FindByUsername(s.users, username, s.nextId)
    case None => Reject(s, NOT_FOUND, "User not found")
    case Some(id) => Reply(s, OK, ProfileBody(ProfileOf(id, s.users[id])), [])
  }

  // ---------------------------------------------------------------------
  // Follow / unfollow

  /** `followUnfollowUser`: a toggle across the target's `followers` and the
      requester's `following`, decided by the requester's `following` list.
      Only a follow writes a notification. */
  function FollowUnfollowUser(s: Store, requester: UserId, target: UserId): (r: Reply)
    // the self-follow check comes before the not-found check
    ensures target == requester ==> r == Reject(s, BAD_REQUEST, "You can't follow yourself")
    ensures target != requester && (target !in s.users || requester !in s.users) ==>
      r == Reject(s, NOT_FOUND, "User not found")
    ensures r.status == OK <==> target != requester && target in s.users && requester in s.users
    ensures r.effects == [] && r.store.posts == s.posts && r.store.nextId == s.nextId
    ensures r.store.users.Keys == s.users.Keys
    ensures forall u :: u in s.users && u != requester && u != target ==> r.store.users[u] == s.users[u]
  {
    if target == requester then Reject(s, BAD_REQUEST, "You can't follow yourself")
    else if target !in s.users || requester !in s.users then Reject(s, NOT_FOUND, "User not found")
    else
      var them := s.users[target];
      var me := s.users[requester];
      if target in me.following then
        var users := s.users[target := them.(followers := RemoveAll(them.followers, requester))]
                            [requester := me.(following := RemoveAll(me.following, target))];
        Reply(s.(users := users), OK, Message("Unfollowed successfully"), [])
      else
        var users := s.users[target := them.(followers := them.followers + [requester])]
                            [requester := me.(following := me.following + [target])];
        Reply(s.(users := users, notifications := s.notifications + [NewNotification(requester, target, Follow)]),
              OK, Message("Followed successfully"), [])
  }

  /** Unfollowing: every occurrence of the requester leaves the target's
      followers and every occurrence of the target leaves the requester's
      following; nothing else in either record changes and nobody is
      notified. */
  lemma UnfollowRemoves(s: Store, requester: UserId, target: UserId)
    requires requester != target && requester in s.users && target in s.users
    requires target in s.users[requester].following
    ensures var r := FollowUnfollowUser(s, requester, target);
      && var them := s.users[target];
      && var me := s.users[requester];
      && var them' := r.store.users[target];
      && var me' := r.store.users[requester];
      && r.body == Message("Unfollowed successfully")
      && them' == them.(followers := them'.followers)
      && me' == me.(following := me'.following)
      && (forall x :: x in them'.followers <==> x in them.followers && x != requester)
      && multiset(them'.followers) == multiset(them.followers)[requester := 0]
      && (forall x :: x in me'.following <==> x in me.following && x != target)
      && multiset(me'.following) == multiset(me.following)[target := 0]
      && r.store == s.(users := s.users[target := them'][requester := me'])
  {
  }

  /** Following: the requester is appended to the target's followers and the
      target to the requester's following, and the target gets exactly one
      follow notification. */
  lemma FollowAppends(s: Store, requester: UserId, target: UserId)
    requires requester != target && requester in s.users && target in s.users
    requires target !in s.users[requester].following
    ensures var r := FollowUnfollowUser(s, requester, target);
      && var them := s.users[target];
      && var me := s.users[requester];
      && r.body == Message("Followed successfully")
      && r.store.users[target] == them.(followers := them.followers + [requester])
      && r.store == s.(users := s.users[target := them.(followers := them.followers + [requester])]
                                       [requester := me.(following := me.following + [target])],
                       notifications := s.notifications + [NewNotification(requester, target, Follow)])
  {
  }

  /** Following and then unfollowing a user gives the store back, except for
      the follow notification, which stays. */
  lemma FollowThenUnfollow(s: Store, requester: UserId, target: UserId)
    requires Valid(s)
    requires requester != target && requester in s.users && target in s.users
    requires target !in s.users[requester].following
    ensures var followed := FollowUnfollowUser(s, requester, target);
      var unfollowed := FollowUnfollowUser(followed.store, requester, target);
      && followed.body == Message("Followed successfully")
      && unfollowed.body == Message("Unfollowed successfully")
      && unfollowed.store == s.(notifications := s.notifications + [NewNotification(requester, target, Follow)])
  {
    assert requester !in s.users[target].followers;
    ToggleRoundTrip(s, requester, target);
  }

  /** The round trip for a pair that holds neither relationship entry. */
  lemma ToggleRoundTrip(s: Store, requester: UserId, target: UserId)
    requires requester != target && requester in s.users && target in s.users
    requires target !in s.users[requester].following
    requires requester !in s.users[target].followers
    ensures var followed := FollowUnfollowUser(s, requester, target);
      var unfollowed := FollowUnfollowUser(followed.store, requester, target);
      && followed.body == Message("Followed successfully")
      && unfollowed.body == Message("Unfollowed successfully")
      && unfollowed.store == s.(notifications := s.notifications + [NewNotification(requester, target, Follow)])
  {
    var them := s.users[target];
    var me := s.users[requester];
    var them1 := them.(followers := them.followers + [requester]);
    var me1 := me.(following := me.following + [target]);
    var mid := s.(users := s.users[target := them1][requester := me1],
                  notifications := s.notifications + [NewNotification(requester, target, Follow)]);
    assert FollowUnfollowUser(s, requester, target) == Reply(mid, OK, Message("Followed successfully"), []);
    RemoveAfterAppend(them.followers, requester);
    RemoveAfterAppend(me.following, target);
    assert mid.users[target] == them1 && mid.users[requester] == me1;
    assert target in me1.following;
    assert FollowUnfollowUser(mid, requester, target)
        == Reply(mid.(users := mid.users[target := them][requester := me]), OK, Message("Unfollowed successfully"), []);
    assert mid.users[target := them][requester := me] == s.users;
  }

  lemma FollowPreservesValid(s: Store, requester: UserId, target: UserId)
    requires Valid(s)
    ensures Valid(FollowUnfollowUser(s, requester, target).store)
  {
    var t := FollowUnfollowUser(s, requester, target).store;
    if requester != target && requester in s.users && target in s.users {
      var add := target !in s.users[requester].following;
      if add {
        FollowAppends(s, requester, target);
      } else {
        UnfollowRemoves(s, requester, target);
      }
      ToggleKeepsValid(s, t, requester, target, add);
    }
  }

  // ---------------------------------------------------------------------
  // Suggestions

  /** The aggregation's `$match` and `$sample` stages. `pool` stands for the
      random order in which `$sample` draws users; the stages keep the first
      ten users other than the requester. */
  function SampleStage(pool: seq<UserId>, requester: UserId): (r: seq<UserId>)
    ensures |r| <= 10
    ensures forall u :: u in r ==> u in pool && u != requester
    ensures IsSubsequence(r, pool)
    // the first draws other than the requester, ten of them unless the pool runs out
    ensures var others := Without(pool, [requester]);
      |r| <= |others| && r == others[..|r|] && (|r| < 10 ==> r == others)
  {
    var others := Without(pool, [requester]);
    TakeIsSubsequence(others, pool, 10);
    var r := Take(others, 10);
    assert forall u :: u in r ==> u in others;
    r
  }

  /** The users `getSuggestedUsers` answers with, by id: the sampled users
      the requester does not follow, at most four, in sample order. */
  function SuggestedIds(s: Store, requester: UserId, pool: seq<UserId>): (ids: seq<UserId>)
    requires requester in s.users
    ensures |ids| <= 4
    ensures forall u :: u in ids ==>
      u != requester && u !in s.users[requester].following && u in SampleStage(pool, requester)
    ensures IsSubsequence(ids, SampleStage(pool, requester))
    // `slice(0, 4)`: the first four unfollowed users of the sample
    ensures var unfollowed := Without(SampleStage(pool, requester), s.users[requester].following);
      |ids| <= |unfollowed| && ids == unfollowed[..|ids|] && (|ids| < 4 ==> ids == unfollowed)
    // fewer than four only when the sample had no other unfollowed user
    ensures |ids| < 4 ==> forall u ::
      u in SampleStage(pool, requester) && u !in s.users[requester].following ==> u in ids
  {
    var sample := SampleStage(pool, requester);
    var unfollowed := Without(sample, s.users[requester].following);
    TakeIsSubsequence(unfollowed, sample, 4);
    var ids := Take(unfollowed, 4);
    assert forall u :: u in ids ==> u in unfollowed;
    ids
  }

  /** `getSuggestedUsers`. The requester is the authenticated user, and the
      sample is drawn from the users collection. */
  function GetSuggestedUsers(s: Store, requester: UserId, pool: seq<UserId>): (r: Reply)
    requires requester in s.users
    requires forall u :: u in pool ==> u in s.users
    ensures r.store == s && r.status == OK && r.effects == [] && r.body.ProfilesBody?
    ensures |r.body.profiles| <= 4
    ensures forall p :: p in r.body.profiles ==>
      && p.id != requester
      && p.id !in s.users[requester].following
      && p.id in s.users && p == ProfileOf(p.id, s.users[p.id])
    ensures var ids := SuggestedIds(s, requester, pool);
      |r.body.profiles| == |ids| && forall i :: 0 <= i < |ids| ==> r.body.profiles[i].id == ids[i]
  {
    var ids := SuggestedIds(s, requester, pool);
    var profiles := seq(|ids|, i requires 0 <= i < |ids| => assert ids[i] in ids; ProfileOf(ids[i], s.users[ids[i]]));
    assert forall p :: p in profiles ==> exists i :: 0 <= i < |ids| && p == profiles[i] && ids[i] in ids;
    Reply(s, OK, ProfilesBody(profiles), [])
  }

  // ---------------------------------------------------------------------
  // Profile update

  /** The fields of an update request; a missing field is "". */
  datatype ProfileUpdate = ProfileUpdate(
    fullName: string,
    username: string,
    email: string,
    currentPassword: string,
    newPassword: string,
    bio: string,
    link: string,
    profileImg: string,
    coverImg: string)

  /** The image-host calls for one image field: when a new image is
      supplied, the current one (if any) is destroyed and the new one is
      uploaded. */
  function ReplaceImage(current: string, supplied: string): (calls: seq<Effect>)
    // no image supplied: no call at all
    ensures supplied == "" <==> calls == []
    // an image supplied: its upload is the last call
    ensures calls != [] ==> calls[|calls| - 1] == Upload(supplied)
    // the current image is destroyed first exactly when there is one to replace
    ensures |calls| <= 2
    ensures |calls| == 2 <==> supplied != "" && current != ""
    ensures |calls| == 2 ==> calls[0] == Destroy(ImageId(current))
  {
    if supplied == "" then []
    else if current == "" then [Upload(supplied)]
    else [Destroy(ImageId(current)), Upload(supplied)]
  }

  /** A user other than `id` already holds `username` or `email`, so the
      unique indexes reject saving those handles under `id`. */
  predicate HeldByOther(users: map<UserId, User>, id: UserId, username: string, email: string)
  {
    exists v :: v in users && v != id && (users[v].username == username || users[v].email == email)
  }

  /** The save clashes exactly when, leaving the user's own record aside,
      the username or the email is already taken. */
  lemma HeldByOtherIffTaken(users: map<UserId, User>, id: UserId, username: string, email: string)
    ensures HeldByOther(users, id, username, email) <==>
      UsernameTaken(users - {id}, username) || EmailTaken(users - {id}, email)
  {
    var others := users - {id};
    if HeldByOther(users, id, username, email) {
      var v :| v in users && v != id && (users[v].username == username || users[v].email == email);
      assert v in others && others[v] == users[v];
    }
    if UsernameTaken(others, username) {
      var v :| v in others && others[v].username == username;
      assert v in users && v != id && users[v] == others[v];
    }
    if EmailTaken(others, email) {
      var v :| v in others && others[v].email == email;
      assert v in users && v != id && users[v] == others[v];
    }
  }

  /** The request gets past the lookup and the password checks: the user
      exists, the two passwords come together or not at all, and a password
      change names the right current password and a long enough new one. */
  predicate PassesChecks(s: Store, requester: UserId, req: ProfileUpdate)
  {
    && requester in s.users
    && (req.currentPassword == "") == (req.newPassword == "")
    && (req.currentPassword != "" ==>
          Matches(req.currentPassword, s.users[requester].password)
          && Utf16Length(req.newPassword) >= Auth.MIN_PASSWORD_LENGTH)
  }

  /** The record `updateUser` saves: each field keeps its stored value when
      the request leaves it falsy, an image field takes the uploaded URL,
      and the password becomes the new password's digest only on a
      password change. */
  function Updated(u: User, req: ProfileUpdate, profileUrl: string, coverUrl: string): (u': User)
    ensures u'.fullName == if req.fullName != "" then req.fullName else u.fullName
    ensures u'.username == if req.username != "" then req.username else u.username
    ensures u'.email == if req.email != "" then req.email else u.email
    ensures u'.bio == if req.bio != "" then req.bio else u.bio
    ensures u'.link == if req.link != "" then req.link else u.link
    ensures u'.profileImg == if req.profileImg != "" && profileUrl != "" then profileUrl else u.profileImg
    ensures u'.coverImg == if req.coverImg != "" && coverUrl != "" then coverUrl else u.coverImg
    ensures u'.password == if req.currentPassword != "" && req.newPassword != "" then Hash(req.newPassword) else u.password
    ensures u'.followers == u.followers && u'.following == u.following && u'.likedPosts == u.likedPosts
  {
    var rotate := req.currentPassword != "" && req.newPassword != "";
    var profileImg := if req.profileImg != "" then profileUrl else req.profileImg;
    var coverImg := if req.coverImg != "" then coverUrl else req.coverImg;
    u.(
      password := if rotate then Hash(req.newPassword) else u.password,
      fullName := OrElse(req.fullName, u.fullName),
      username := OrElse(req.username, u.username),
      email := OrElse(req.email, u.email),
      profileImg := OrElse(profileImg, u.profileImg),
      coverImg := OrElse(coverImg, u.coverImg),
      bio := OrElse(req.bio, u.bio),
      link := OrElse(req.link, u.link))
  }

  /** The message the database driver's duplicate-key error starts with. */
  const DUPLICATE_KEY: string := "E11000 duplicate key error"

  /** `updateUser`. `profileUrl` and `coverUrl` are the URLs the image host
      returns for the supplied images. */
  function UpdateUser(s: Store, requester: UserId, req: ProfileUpdate, profileUrl: string, coverUrl: string): (r: Reply)
    ensures requester !in s.users ==> r == Reject(s, NOT_FOUND, "User not found")
    // supplying only one of the two passwords is refused before any check of the password
    ensures requester in s.users && (req.currentPassword == "") != (req.newPassword == "") ==>
      r == Reject(s, BAD_REQUEST, "Please provide both current and new password")
    // a wrong current password is refused whatever the new password's length
    ensures requester in s.users && req.currentPassword != "" && req.newPassword != ""
            && !Matches(req.currentPassword, s.users[requester].password) ==>
      r == Reject(s, UNAUTHORIZED, "Current password is incorrect")
    ensures requester in s.users && req.currentPassword != "" && req.newPassword != ""
            && Matches(req.currentPassword, s.users[requester].password)
            && Utf16Length(req.newPassword) < Auth.MIN_PASSWORD_LENGTH ==>
      r == Reject(s, BAD_REQUEST, "New password must be at least 6 characters long")
    // once every check passes, the save succeeds exactly when no other user
    // holds the resulting username or email, and fails with 500 otherwise
    ensures PassesChecks(s, requester, req) ==>
      && (r.status == OK || r.status == SERVER_ERROR)
      && var u := s.users[requester];
      && (r.status == OK <==> !HeldByOther(s.users, requester, OrElse(req.username, u.username), OrElse(req.email, u.email)))
    ensures r.status == OK || r.status == SERVER_ERROR ==>
      && PassesChecks(s, requester, req)
      && var u := s.users[requester];
      && r.effects == ReplaceImage(u.profileImg, req.profileImg) + ReplaceImage(u.coverImg, req.coverImg)
    ensures r.status == SERVER_ERROR ==> r.store == s && r.body == Error(DUPLICATE_KEY)
    ensures r.status == OK ==>
      && requester in s.users
      && var u' := Updated(s.users[requester], req, profileUrl, coverUrl);
      && r.store == s.(users := s.users[requester := u'])
      // the reply carries the saved user without the password
      && r.body == ProfileBody(ProfileOf(requester, u'))
  {
    if requester !in s.users then Reject(s, NOT_FOUND, "User not found")
    else if (req.newPassword == "" && req.currentPassword != "") || (req.currentPassword == "" && req.newPassword != "") then
      Reject(s, BAD_REQUEST, "Please provide both current and new password")
    else
      var u := s.users[requester];
      var rotate := req.currentPassword != "" && req.newPassword != "";
      if rotate && !Matches(req.currentPassword, u.password) then
        Reject(s, UNAUTHORIZED, "Current password is incorrect")
      else if rotate && Utf16Length(req.newPassword) < Auth.MIN_PASSWORD_LENGTH then
        Reject(s, BAD_REQUEST, "New password must be at least 6 characters long")
      else
        var effects := ReplaceImage(u.profileImg, req.profileImg) + ReplaceImage(u.coverImg, req.coverImg);
        var updated := Updated(u, req, profileUrl, coverUrl);
        if HeldByOther(s.users, requester, updated.username, updated.email) then
          Reply(s, SERVER_ERROR, Error(DUPLICATE_KEY), effects)
        else
          Reply(s.(users := s.users[requester := updated]), OK, ProfileBody(ProfileOf(requester, updated)), effects)
  }

  lemma UpdatePreservesValid(s: Store, requester: UserId, req: ProfileUpdate, profileUrl: string, coverUrl: string)
    requires Valid(s)
    ensures Valid(UpdateUser(s, requester, req, profileUrl, coverUrl).store)
  {
    var r := UpdateUser(s, requester, req, profileUrl, coverUrl);
    if r.status == OK {
      var u' := r.store.users[requester];
      ReplaceAccountKeepsValid(s, requester, u');
    }
  }

  /** After a successful password change, logging in with the new password
      succeeds and logging in with the old one fails. */
  lemma RotateThenLogin(s: Store, requester: UserId, req: ProfileUpdate, profileUrl: string, coverUrl: string)
    requires Valid(s)
    requires req.currentPassword != "" && req.newPassword != "" && req.currentPassword != req.newPassword
    requires UpdateUser(s, requester, req, profileUrl, coverUrl).status == OK
    ensures var t := UpdateUser(s, requester, req, profileUrl, coverUrl).store;
      && requester in t.users
      && var name := t.users[requester].username;
      && Auth.Login(t, name, req.newPassword).status == OK
      && Auth.Login(t, name, req.currentPassword).status == UNAUTHORIZED
  {
    var t := UpdateUser(s, requester, req, profileUrl, coverUrl).store;
    var u' := Updated(s.users[requester], req, profileUrl, coverUrl);
    assert t.users[requester] == u';
    assert u'.password == Hash(req.newPassword);
    UpdatePreservesValid(s, requester, req, profileUrl, coverUrl);
    FindOwner(t, requester);
    assert Matches(req.newPassword, u'.password);
    assert !Matches(req.currentPassword, u'.password);
  }
}
